=== FILE: README.md ===
# Camera capture addon: session controller and capture worker

A Dafny model of the native core of a Node.js webcam addon. The addon exports four
functions. `open` configures a session and starts a capture thread. `close` stops it.
`isOpened` and `getFrameSize` report on it. The capture thread reads a frame, scales it
or adopts its size, optionally marks a face found by OpenCV's `DetectionBasedTracker`,
encodes the frame, and hands the bytes to a JavaScript callback.

The model has four modules:

- `Common` (`common.dfy`): `Option`, `int32`, `byte`, and JavaScript's `Int32Value`
  conversion written out as a reduction modulo 2^32.
- `Session` (`session.dfy`): the session record `TMessage`, the global `bag` pointer and the
  global async handle, and the four exports as pure transition functions
  `Addon -> (result, Addon)`. The global pointer is `NoBag`, `Live(record)` or `Freed`.
  `Freed` is the dangling state `close` leaves after deleting a stale record. Every export
  requires a state other than `Freed`, because any call in that state reads freed memory.
  The options object comes in already read (`Options`). The foreign outcomes (cascade
  loads, tracker start, device open) come in as `Env`.
- `Worker` (`worker.dfy`): the capture loop in `thread.cpp`. It contains the loop condition,
  one loop body as a pure function, the loop over a schedule of observations, the
  byte-to-array copy in `updateAsync`, and the completion handler `cameraClose`. A frame is
  abstracted to its size, and tracked objects to (rectangle, status) pairs. `imencode` is a
  function parameter about which nothing is assumed.
- `Lifecycle` (`lifecycle.dfy`): the controller and the worker together, sharing one record.
  It also holds the finding below.

## Behaviour of the code that the model keeps

- **Device index 0 always.** The `input` declared inside the `if` at camera.cpp:97 shadows
  the one at :94, so the value tested at :170 is always the number 0. The number/path
  branch at :170-173 therefore always opens device 0, and its path half at :173 is dead.
  The `input` option is ignored. `DeviceSource` computes this as written, and `Open` is
  proved independent of `input`.
- **Early allocation.** `open` allocates a fresh record before it validates anything
  (camera.cpp:51). A thrown error therefore leaves a newly allocated, unstarted record behind. The
  replaced record is not deleted (camera.cpp:47), so it leaks. The model simply drops it.
- **Stale close leaves a dangling pointer.** camera.cpp:223 deletes the record and does not
  reset `bag`. Any later call, `open` included, reads freed memory. The model marks this
  state `Freed` and calls nothing in it.
- **Callback kept after close.** `close` does not reset the record's callback handle.
- **Error kinds.** Every error is a `TypeError`, with the exact message in
  `ErrorMessage`. Both cascade checks use the same message.
- **Four tracker statuses.** The tracker reports OpenCV's four statuses
  (`DETECTED_NOT_SHOWN_YET`, `DETECTED`, `DETECTED_TEMPORARY_LOST`, `WRONG_OBJECT`). Only
  `DETECTED` matters.
- **Encode result ignored.** The boolean `imencode` returns is not checked. When the
  encoder returns, the message carries whatever bytes it produced, and no frame is skipped.
  When it throws instead (a codec string that names no known extension, such as "jpg"
  without the dot, which `open` stores unchecked), nothing on the worker thread catches the
  exception and the process terminates; the model does not cover that case (see
  "## Left out").
- **Handle state decides delivery.** A message is sent whenever the async handle was ever
  initialised, including after `close` has closed it. Otherwise it is deleted.

## Model

| member | source | states |
|---|---|---|
| `Common.ToInt32` | src/native/camera.cpp:70-71 | The stored width and height are the option values reduced modulo 2^32 into the signed 32-bit range. In-range values are unchanged. |
| `Session.Open` | src/native/camera.cpp:35-209 | A started session makes `open` return false and leave the whole state unchanged. Otherwise the record is always replaced. `open` returns true exactly when the argument is an object, any `frameCallback` is a function, face detection (if asked for) has both cascades loaded and the tracker running, and device index 0 opens. On success the session is started, the device is open from index 0, the tracker runs iff face detection was asked for, the record holds exactly the `frameCallback` function given, if any, and the async handle is armed iff a callback was given. Every thrown error leaves an unstarted record and the async handle untouched. |
| `Session.ErrorMessage` | src/native/camera.cpp:55-181 | Each TypeError carries the source's text. Exactly the detector and device failures start with "Error: "; the argument errors do not. |
| `Session.ErrorMessagesDistinct` | src/native/camera.cpp:55-181 | Different errors carry different messages. |
| `Session.OpenErrorOrder` | src/native/camera.cpp:53-183 | Each of the six errors is raised exactly when every earlier check passed and its own check failed. The order is: missing argument, non-object, non-function callback, cascade load, tracker start, device open. |
| `Session.OpenEarlyExitState` | src/native/camera.cpp:50-183 | The record each error leaves is the one a later `close` deletes, with both pointers. A missing or non-object argument leaves exactly the freshly allocated record. A bad callback or a cascade failure leaves neither a device nor a tracker. A tracker whose `run()` fails stays in the record, not running, and there is still no device. A device that will not open stays in the record, unopened and from index 0, next to the running tracker if face detection was asked for. |
| `Session.OpenAppliesOptions` | src/native/camera.cpp:67-111 | Once the options object is read (on success and on every later error), `resize` holds iff both width and height are given, with their converted values; otherwise both are 0. The codec is the given one or ".jpg". Face detection is on only if asked for. The record holds the `frameCallback` function when one was given, and no callback otherwise. |
| `Session.DeviceSource` | src/native/camera.cpp:93-174 | The device is always opened from index 0, whatever the `input` option holds, because the inner `input` shadows the outer one. |
| `Session.OpenIgnoresInput` | src/native/camera.cpp:93-174 | Two `open` calls that differ only in `input` have the same result and leave the same state. |
| `Session.SecondOpenRejected` | src/native/camera.cpp:39-44 | After a successful `open`, another `open` with any arguments and any foreign outcomes returns false and changes nothing. |
| `Session.Close` | src/native/camera.cpp:211-253 | `close` returns true iff a started record exists. With no record nothing changes. With an unstarted record, that record is deleted and `bag` is left dangling. With a started record, only `started` is cleared, a face tracker is stopped, an armed async handle is closed, and the record is kept. |
| `Session.CloseTwiceReturnsFalse` | src/native/camera.cpp:215-229 | After a `close` that returned true, or with no record, a second `close` returns false. |
| `Session.IsOpened` | src/native/camera.cpp:255-261 | `isOpened` holds iff a record exists and is started. |
| `Session.IsOpenedTracksOpenAndClose` | src/native/camera.cpp:259 | After `open`, `isOpened` holds iff the session was already started or this call returned true. It never holds after `close`. |
| `Session.GetFrameSize` | src/native/camera.cpp:263-275 | The frame size is reported iff the session is opened, and it is then the record's width and height. Otherwise the result is empty. |
| `Session.FailedOpenLeavesClosed` | src/native/camera.cpp:215-227 | After any thrown error the session is not opened and reports no size. A following `close` returns false and deletes the record the failed `open` left. |
| `Session.ReopenAfterClose` | src/native/camera.cpp:39-51 | After a `close` that returned true, `open` returns the same result and leaves the same record as it would from a state with no record. |
| `Worker.LoopContinues` | src/native/thread.cpp:76 | For every state of the async handle, the loop continues iff `isOpened` would report the global session as opened, the worker's record has a device pointer, and that device reports open. The async handle plays no part. |
| `Worker.FirstDetected` | src/native/thread.cpp:108-114 | The scan finds the first object in list order whose status is DETECTED, or reports that there is none. |
| `Worker.MarkIsFirstDetection` | src/native/thread.cpp:108-114 | The rectangle drawn is the first of all detected locations. Exactly one rectangle is drawn when any object is detected, and none otherwise. |
| `Worker.Iterate` | src/native/thread.cpp:78-145 | With `resize`, the frame is scaled to the record's size and the record is unchanged. Without it, the raw frame is used and its size becomes the record's, with nothing else changed. `faceDetected` is false when face detection is off. When it is on, `faceDetected` holds iff some object is DETECTED, and the one mark sits on the first such object. The encoder receives the record's codec, the marked frame and the parameters [JPEG quality, 85]. The message is sent iff the async handle is initialised, and deleted otherwise. |
| `Worker.IterateMarksFirstDetected` | src/native/thread.cpp:108-114 | When an iteration reports a face, the rectangle drawn belongs to some DETECTED object, and no object before it in the tracker's list is DETECTED. |
| `Worker.CameraLoop` | src/native/thread.cpp:68-153 | Every iteration that runs had the loop condition true at its start: a live, started record, a device pointer, and an open device. The run stops at the first tick where the condition fails. Only the record's dimensions change. They stay at the requested size with `resize`, and otherwise end at the last frame's size. Each output has, for its tick, the right frame, face flag, delivery, and mark: the first DETECTED object's rectangle when face detection is on, none otherwise. The encoder receives that marked frame with the record's codec and quality 85. |
| `Worker.ToCallbackArray` | src/native/thread.cpp:45-49 | The array has the image's length, and element i is byte i. |
| `Worker.UpdateAsync` | src/native/thread.cpp:32-61 | The callback of the record `bag` currently points at receives an array equal to the encoded bytes (each in 0..255) and the message's face flag. |
| `Worker.CameraCloseAsWritten` | src/native/thread.cpp:158-166 | The completion handler as written deletes the device and leaves the record's pointer dangling. Nothing else in the record changes. |
| `Worker.CameraClose` | src/native/thread.cpp:158-166 | The completion handler with the pointer reset deletes the device, and the record no longer refers to it. Nothing else changes. |
| `Lifecycle.SharedIteration` | src/native/thread.cpp:87-145 | An iteration on the shared record leaves the async handle as it was and changes only the record's dimensions. With `resize` the record is unchanged; without it the dimensions become the frame's, which is what `getFrameSize` reports next, whether or not `close` has cleared `started` meanwhile. The message is the worker's own iteration output on that record: the same frame, face flag, first-DETECTED mark and encoding. It is sent iff the global handle was ever initialised. |
| `Lifecycle.OpenStartsLoop` | src/native/thread.cpp:76 | After a successful `open`, the loop condition holds for the new record while the device is open. |
| `Lifecycle.CloseStopsLoop` | src/native/thread.cpp:76 | After a successful `close`, the loop condition is false for any record and any device state. |
| `Lifecycle.FrameSizeAfterFirstFrame` | src/native/thread.cpp:87-98 | After `open` and one frame, `getFrameSize` reports the requested size when both dimensions were given, and otherwise the frame's native size. |
| `Lifecycle.WorkerExit` | src/native/thread.cpp:158-166 | The corrected completion handler (pointer reset after the delete) applied to the shared record releases its device and changes nothing else. |
| `Lifecycle.WorkerExitAsWritten` | src/native/thread.cpp:158-166 | The as-written completion handler applied to the shared record leaves a dangling device pointer in it. |
| `Lifecycle.DoubleDeleteAsWritten` | src/native/types.h:71-75 | After open, close and the as-written worker exit, a second close deletes a record whose device was already deleted. The record's destructor then deletes the device a second time. |
| `Lifecycle.TeardownDeletesDeviceOnce` | src/native/thread.cpp:158-166 | With the pointer reset, the same sequence deletes a record that no longer refers to the device. The device is deleted once, by the completion handler. |
| `Lifecycle.NoDanglingDeviceInvariant` | src/native/types.h:71-75 | `open`, `close`, a loop iteration and the corrected worker exit all keep live records free of dangling device pointers, so `close` never deletes such a record. |

## Findings

| source | as written | input that shows it | evidently intended | confidence | as-written member | corrected member |
|---|---|---|---|---|---|---|
| src/native/thread.cpp:163-164 | `cameraClose` releases and deletes `capture` but keeps the pointer. The record's destructor (types.h:73) deletes it again when `close` later deletes the record. | `open({})` succeeds; `close()` returns true; the loop ends and `cameraClose` runs; `close()` is called again and deletes the record, so the device is deleted twice. | The device is deleted exactly once. The pointer reset after the delete gives this only when the worker exits before the stale `close`; for the opposite order see "## Left out". | high, not executed | `Worker.CameraCloseAsWritten` (shown by `Lifecycle.DoubleDeleteAsWritten`) | `Worker.CameraClose` (proved by `Lifecycle.TeardownDeletesDeviceOnce` and `Lifecycle.NoDanglingDeviceInvariant`) |

## Left out

- V8 marshalling is left out: `Has`, `Get`, `ToString`, `BooleanValue`, and `Int32Value` of non-integral numbers, NaN or infinities. The options arrive already read, `width`/`height` as integers. `stringValue` (types.cpp:10-22), including its missing NUL terminator, is not part of this model.
- The double delete when a second `close` comes before the worker exits is not fixed or modelled. In `open({}); close(); close();` within one JavaScript turn, the second `close` deletes the record and, through its destructor, the device (camera.cpp:223, types.h:73). `cameraClose` then runs on the freed record and releases and deletes the device again (thread.cpp:162-164), and resetting the pointer there only writes to freed memory. The model reaches `Freed` after the second `close` and applies no handler in that state, so `Worker.CameraClose` corrects only the order in which the worker exits first.
- No calls are modelled in the `Freed` state. Any export called after a stale `close` reads freed memory, and so does the worker loop when its tick shows `Freed`. The model's preconditions exclude this state rather than invent its behaviour.
- Concurrency is left out. The model does not cover the libuv work queue, the unsynchronised reads and writes of `started` and the dimensions between threads, the overwrite of `async.data` (which can leak an unconsumed message), `uv_loop_close`, or an earlier worker still running on a record that `open` replaced. The worker's view of the global pointer and of the async handle at each iteration is an input (`Tick`).
- OpenCV is left out. `VideoCapture::read`, including a failed read and the exception `resize` throws on an empty frame or a non-positive size, is not modelled. Neither is the `cv::Exception` `imencode` throws when the codec names no known extension (for example `open({codec: "jpg"})`): it is uncaught on the worker thread and ends the process, whereas `Worker.Iterate` and `Worker.CameraLoop` always produce a message. Neither are `cvtColor`, the cascade classifier, the `CascadeDetectorAdapter` and `DetectionBasedTracker` algorithms, or `Mat` buffer sharing between successive messages. Frames are sizes, tracker output is an input, and the encoder is an unconstrained parameter.
- `Worker.Iterate` does not require a tracker when face detection is on. The code dereferences `detector` there, but a successful `open` always creates one, and the tracked objects are an input.
- `Worker.CameraLoop` covers a finite schedule of ticks. A run that outlasts the schedule is described only up to its end.
- Debug-window code and `printf` logging are left out.
- Module registration (camera.cpp:277-287) is left out.
- Memory management is left out beyond the double delete above. This covers the leak of the replaced record, the destructors of `TMessage` and `AsyncMessage`, `delete asyncMessage`, `delete req`, and `callback.Reset`.

=== FILE: common.dfy ===
/** Value types shared by the session controller and the capture worker. */
module Common {

  /** The conventional Some/None datatype, used where the native code has a nullable
      pointer or an optional property. */
  datatype Option<+T> = None | Some(value: T)

  /** A C `int32_t`. */
  type int32 = x: int | -0x8000_0000 <= x < 0x8000_0000

  /** A C `unsigned char`, the element type of an encoded image buffer. */
  type byte = x: int | 0 <= x < 0x100

  const TwoTo32: int := 0x1_0000_0000

  /** The JavaScript `Int32Value` conversion of an integral number: reduction modulo 2^32
      into the signed 32-bit range. Non-integral numbers, NaN and infinities are not
      modelled. */
  function ToInt32(n: int): (r: int32)
    ensures (r - n) % TwoTo32 == 0
    ensures -0x8000_0000 <= n < 0x8000_0000 ==> r == n
  {
    var m := n % TwoTo32;
    if m >= 0x8000_0000 then m - TwoTo32 else m
  }
}

=== FILE: lifecycle.dfy ===
/** The session controller and the capture worker together. While a session is running,
    the record the worker was started with is the one the global `bag` points at, so the
    dimensions the worker writes are the ones `getFrameSize` reports, and the `started`
    flag `close` clears is the one the loop condition reads. */
module Lifecycle {
  import opened Common
  import opened Session
  import opened Worker

  /** One loop iteration of the worker started by the latest successful `open`, writing
      through the shared record. The message is sent when the global async handle has
      been initialised at some point, deleted otherwise. */
  function SharedIteration(s: Addon, frame: Size, faces: seq<TrackedObject>, encode: Encoder): (r: (Addon, Output))
    requires s.bag.Live?
    ensures r.0.async == s.async && r.0.bag.Live?
    ensures SameSettings(r.0.bag.rec, s.bag.rec)
    // the worker writes its frame size through the shared record unless it resizes
    ensures s.bag.rec.resize ==> r.0.bag.rec == s.bag.rec
    ensures !s.bag.rec.resize ==> r.0.bag.rec.width == frame.width && r.0.bag.rec.height == frame.height
    // the message is the worker's own, sent iff the global handle was ever initialised
    ensures r.1 == Iterate(s.bag.rec, frame, faces, !s.async.Uninitialised?, encode).output
    ensures r.1.delivery == Sent <==> !s.async.Uninitialised?
  {
    var it := Iterate(s.bag.rec, frame, faces, !s.async.Uninitialised?, encode);
    (s.(bag := Live(it.record)), it.output)
  }

  /** After a successful `open` the loop runs for as long as the device stays open. */
  lemma OpenStartsLoop(s: Addon, args: Args, env: Env)
    requires !s.bag.Freed?
    requires Open(s, args, env).result == Returned(true)
    ensures LoopContinues(Open(s, args, env).state.bag, Open(s, args, env).state.bag.rec, true)
  {
  }

  /** After a successful `close` the loop stops at its next iteration boundary, whatever
      record it runs on and whatever the device reports. */
  lemma CloseStopsLoop(s: Addon, message: Record, deviceIsOpen: bool)
    requires !s.bag.Freed?
    requires Close(s).result
    ensures !Close(s).state.bag.Freed?
    ensures !LoopContinues(Close(s).state.bag, message, deviceIsOpen)
  {
  }

  /** The frame size reported after the first frame: the requested size when `open` was
      given both dimensions, otherwise the native size of the frame just read. */
  lemma FrameSizeAfterFirstFrame(s: Addon, opts: Options, env: Env, frame: Size, faces: seq<TrackedObject>, encode: Encoder)
    requires !s.bag.Freed?
    requires Open(s, ObjectArg(opts), env).result == Returned(true)
    ensures
      var s' := SharedIteration(Open(s, ObjectArg(opts), env).state, frame, faces, encode).0;
      GetFrameSize(s') ==
        if opts.width.Some? && opts.height.Some? then Some((ToInt32(opts.width.value), ToInt32(opts.height.value)))
        else Some((frame.width, frame.height))
  {
    OpenAppliesOptions(s, opts, env);
  }

  /** The corrected completion handler `CameraClose` (pointer reset after the delete), run
      once the loop has ended, applied to the shared record. */
  function WorkerExit(s: Addon): (s': Addon)
    requires s.bag.Live? && s.bag.rec.capture.Device?
    ensures s'.bag.Live? && s'.bag.rec.capture.NoCapture?
    ensures s'.bag.rec.(capture := s.bag.rec.capture) == s.bag.rec && s'.async == s.async
  {
    s.(bag := Live(CameraClose(s.bag.rec)))
  }

  /** The same with `cameraClose` as written, which keeps the deleted device's pointer. */
  function WorkerExitAsWritten(s: Addon): (s': Addon)
    requires s.bag.Live? && s.bag.rec.capture.Device?
    ensures s'.bag.Live? && s'.bag.rec.capture.Dangling?
    ensures s'.bag.rec.(capture := s.bag.rec.capture) == s.bag.rec && s'.async == s.async
  {
    s.(bag := Live(CameraCloseAsWritten(s.bag.rec)))
  }

  /** No live record holds a pointer to a device that was already deleted, so deleting the
      record (whose destructor deletes the device) deletes nothing twice. */
  predicate NoDanglingDevice(s: Addon)
  {
    s.bag.Live? ==> !s.bag.rec.capture.Dangling?
  }

  /** With `cameraClose` as written, the ordinary sequence open, close, worker exit, close
      deletes a record whose device pointer was already deleted: the record's destructor
      deletes the device a second time. */
  lemma DoubleDeleteAsWritten(s: Addon, args: Args, env: Env)
    requires !s.bag.Freed?
    requires Open(s, args, env).result == Returned(true)
    ensures
      var s1 := Close(Open(s, args, env).state).state;
      && s1.bag.Live? && s1.bag.rec.capture.Device?
      && !WorkerExitAsWritten(s1).bag.Freed?
      && Close(WorkerExitAsWritten(s1)).destroyed.Some?
      && Close(WorkerExitAsWritten(s1)).destroyed.value.capture.Dangling?
  {
  }

  /** With the pointer reset, the same sequence deletes a record that no longer refers to
      the device, so the device is deleted once, by the completion handler. */
  lemma TeardownDeletesDeviceOnce(s: Addon, args: Args, env: Env)
    requires !s.bag.Freed?
    requires Open(s, args, env).result == Returned(true)
    ensures
      var s1 := Close(Open(s, args, env).state).state;
      && s1.bag.Live? && s1.bag.rec.capture.Device?
      && !WorkerExit(s1).bag.Freed?
      && Close(WorkerExit(s1)).destroyed.Some?
      && Close(WorkerExit(s1)).destroyed.value.capture.NoCapture?
  {
  }

  /** Every transition keeps the invariant when the completion handler resets the pointer,
      so no `close` ever deletes a record holding a dangling device pointer. */
  lemma NoDanglingDeviceInvariant(s: Addon, args: Args, env: Env, frame: Size, faces: seq<TrackedObject>, encode: Encoder)
    requires !s.bag.Freed? && NoDanglingDevice(s)
    ensures NoDanglingDevice(Open(s, args, env).state)
    ensures NoDanglingDevice(Close(s).state)
    ensures Close(s).destroyed.Some? ==> !Close(s).destroyed.value.capture.Dangling?
    ensures s.bag.Live? ==> NoDanglingDevice(SharedIteration(s, frame, faces, encode).0)
    ensures s.bag.Live? && s.bag.rec.capture.Device? ==> NoDanglingDevice(WorkerExit(s))
  {
  }
}

=== FILE: session.dfy ===
/** The session controller behind the addon's four exports `open`, `close`, `isOpened`
    and `getFrameSize` (src/native/camera.cpp).

    The process holds one global session pointer (`bag`) and one global async handle.
    Each export is a transition function from the global state to a result and a new
    global state. Calls into V8 and OpenCV become inputs: the options object arrives
    already read into `Options`, and the outcomes of loading the cascade, starting the
    tracker and opening the device arrive in `Env`. */
module Session {
  import opened Common

  /** What `VideoCapture::open` was asked to open. */
  datatype Source = ByIndex(index: int) | ByPath(path: string)

  /** The record's `capture` pointer: null, a live device together with what it was asked
      to open and whether that succeeded, or a pointer left dangling after the device
      was deleted. */
  datatype Capture = NoCapture | Device(source: Option<Source>, isOpen: bool) | Dangling

  /** The record's `detector` pointer: null, or a `DetectionBasedTracker` that is running
      or not. */
  datatype Tracker = NoTracker | Tracker(running: bool)

  /** The session record `TMessage` (src/native/types.h). `callback` is the identity of
      the persistent function handle, `None` while the handle is empty. */
  datatype Record = Record(
    width: int32,
    height: int32,
    resize: bool,
    codec: string,
    faceDetect: bool,
    callback: Option<nat>,
    capture: Capture,
    started: bool,
    detector: Tracker)

  /** A record as `new TMessage()` leaves it: value-initialised, so numbers are zero,
      flags false, pointers null and the codec empty. */
  const Fresh: Record := Record(0, 0, false, "", false, None, NoCapture, false, NoTracker)

  /** The codec used when the options name none. */
  const DefaultCodec: string := ".jpg"

  /** The global `bag` pointer: null, pointing at a live record, or dangling after the
      record it pointed at was deleted. */
  datatype Bag = NoBag | Live(rec: Record) | Freed

  /** The global `uv_async_t async`: never initialised (type UV_UNKNOWN_HANDLE), armed by
      `uv_async_init`, or closing after `uv_close`. */
  datatype Async = Uninitialised | Armed | Closing

  /** Everything the exports read and write. */
  datatype Addon = Addon(bag: Bag, async: Async)

  const Initial: Addon := Addon(NoBag, Uninitialised)

  /** The `input` option: a number, a string, or any other JavaScript value. */
  datatype Input = NumberInput(n: int) | StringInput(s: string) | OtherInput

  /** The `frameCallback` option: a function (identified by its handle) or anything else. */
  datatype CallbackValue = Callable(handle: nat) | NotCallable

  /** The properties of the options object that `open` reads; `None` when `Has` is false.
      `width` and `height` are integral numbers before `Int32Value`, `codec` is the string
      `ToString` yields and `faceDetect` is the value's truthiness. */
  datatype Options = Options(
    width: Option<int>,
    height: Option<int>,
    codec: Option<string>,
    input: Option<Input>,
    faceDetect: Option<bool>,
    frameCallback: Option<CallbackValue>)

  /** The first argument of `open`: missing, not an object, or an options object. */
  datatype Args = NoArgs | NonObject | ObjectArg(opts: Options)

  /** Outcomes of the foreign calls `open` makes: loading the cascade file for the main
      and the tracking detector, `DetectionBasedTracker::run`, and `VideoCapture::open`. */
  datatype Env = Env(
    mainCascadeLoads: bool,
    trackingCascadeLoads: bool,
    trackerRuns: bool,
    deviceOpens: Source -> bool)

  /** The TypeErrors `open` throws. */
  datatype Error =
    | MissingArgument
    | NotAnObject
    | CallbackNotFunction
    | CascadeNotLoaded
    | DetectorInitFailed
    | CaptureNotOpened

  /** The prefix of the messages for failures of the detector and the device. */
  const ErrorPrefix: string := "Error: "

  /** The message each TypeError carries. Failures of the detector and the device are
      prefixed "Error: "; argument errors are not. */
  function ErrorMessage(e: Error): (m: string)
    ensures |m| > |ErrorPrefix|
    ensures m[..|ErrorPrefix|] == ErrorPrefix <==> e in {CascadeNotLoaded, DetectorInitFailed, CaptureNotOpened}
  {
    match e
    case MissingArgument => var m := "First argument is missing"; assert m[0] == 'F'; m
    case NotAnObject => var m := "First argument must be object"; assert m[0] == 'F'; m
    case CallbackNotFunction => var m := "frameCallback must be a callback function"; assert m[0] == 'f'; m
    case CascadeNotLoaded => ErrorPrefix + "Cannot load lbpcascade_frontalface.xml"
    case DetectorInitFailed => ErrorPrefix + "Detector initialization failed"
    case CaptureNotOpened => ErrorPrefix + "Unable to open video capture"
  }

  /** Every error has its own message, so a caller can tell from the text which check
      failed. */
  lemma ErrorMessagesDistinct(e1: Error, e2: Error)
    requires e1 != e2
    ensures ErrorMessage(e1) != ErrorMessage(e2)
  {
  }

  /** What a call of `open` does: return a boolean or throw. */
  datatype OpenResult = Returned(value: bool) | Threw(error: Error)

  datatype OpenStep = OpenStep(result: OpenResult, state: Addon)

  /** `close` returns a boolean; `destroyed` is the record it deleted, if any. */
  datatype CloseStep = CloseStep(result: bool, state: Addon, destroyed: Option<Record>)

  /** An intermediate point of `open`: either carry on with the record built so far, or
      stop with an error, leaving the record as it is at that point. */
  datatype Stage = Proceed(rec: Record) | Abort(rec: Record, error: Error)

  /** The `bag && bag->started` test that opens `open` and `close`. It is the body of the
      `isOpened` export too, but unlike `IsOpened` it needs no precondition, because `open`
      and `close` take it before anything else; the contracts use it for that reason. */
  predicate IsStarted(s: Addon)
  {
    s.bag.Live? && s.bag.rec.started
  }

  /** Whether the options ask for face detection. */
  predicate WantsFaceDetect(opts: Options)
  {
    opts.faceDetect == Some(true)
  }

  /** What the record holds once `open` has read the options object, stated per property:
      explicit dimensions only as a pair, the codec and face-detection defaults otherwise,
      and the given callback function only when it is one. */
  ghost predicate ConfiguredFrom(rec: Record, opts: Options)
  {
    && (rec.resize <==> opts.width.Some? && opts.height.Some?)
    && (rec.resize ==> rec.width == ToInt32(opts.width.value) && rec.height == ToInt32(opts.height.value))
    && (!rec.resize ==> rec.width == 0 && rec.height == 0)
    && (opts.codec.None? ==> rec.codec == DefaultCodec)
    && (opts.codec.Some? ==> rec.codec == opts.codec.value)
    && (rec.faceDetect <==> WantsFaceDetect(opts))
    && (opts.frameCallback.Some? && opts.frameCallback.value.Callable? ==>
          rec.callback == Some(opts.frameCallback.value.handle))
    && (opts.frameCallback == Some(NotCallable) ==> rec.callback.None?)
    && (opts.frameCallback.None? ==> rec.callback.None?)
  }

  /** Reads width/height, codec and faceDetect from the options into the record. */
  function ApplyOptions(rec: Record, opts: Options): Record
  {
    var rec :=
      if opts.width.Some? && opts.height.Some? then
        rec.(width := ToInt32(opts.width.value), height := ToInt32(opts.height.value), resize := true)
      else
        rec.(width := 0, height := 0, resize := false);
    var rec := if opts.codec.Some? then rec.(codec := opts.codec.value) else rec.(codec := DefaultCodec);
    if opts.faceDetect.Some? then rec.(faceDetect := opts.faceDetect.value) else rec.(faceDetect := false)
  }

  /** The source the device is opened from, as the code computes it. The `input` declared
      inside the `if` shadows the outer one, so the value tested afterwards is always the
      outer number 0 and the path branch is never taken, whatever the options say. */
  function DeviceSource(opts: Options): (src: Option<Source>)
    ensures src == Some(ByIndex(0))
  {
    var outer := NumberInput(0);
    var inputString := if opts.input.Some? && opts.input.value.StringInput? then opts.input.value.s else "";
    match outer
    case NumberInput(n) => Some(ByIndex(ToInt32(n)))
    case _ => if inputString != "" then Some(ByPath(inputString)) else None
  }

  /** The face-detection set-up: both cascades are loaded and checked, then the tracker
      is created and started. Nothing happens when face detection is off. */
  function InitDetector(rec: Record, env: Env): Stage
  {
    if !rec.faceDetect then Proceed(rec)
    else if !env.mainCascadeLoads then Abort(rec, CascadeNotLoaded)
    else if !env.trackingCascadeLoads then Abort(rec, CascadeNotLoaded)
    else
      var rec := rec.(detector := Tracker(false));
      if !env.trackerRuns then Abort(rec, DetectorInitFailed)
      else Proceed(rec.(detector := Tracker(true)))
  }

  /** Creates the `VideoCapture` and opens it from the computed source. */
  function OpenDevice(rec: Record, opts: Options, env: Env): Stage
  {
    var src := DeviceSource(opts);
    var isOpen := src.Some? && env.deviceOpens(src.value);
    var rec := rec.(capture := Device(src, isOpen));
    if isOpen then Proceed(rec) else Abort(rec, CaptureNotOpened)
  }

  /** Everything `open` does after it has replaced the record, in source order. */
  function Prepare(args: Args, env: Env): Stage
  {
    match args
    case NoArgs => Abort(Fresh, MissingArgument)
    case NonObject => Abort(Fresh, NotAnObject)
    case ObjectArg(opts) =>
      var rec := ApplyOptions(Fresh, opts);
      match opts.frameCallback
      case Some(NotCallable) => Abort(rec, CallbackNotFunction)
      case Some(Callable(h)) => StartCapture(rec.(callback := Some(h)), opts, env)
      case None => StartCapture(rec, opts, env)
  }

  /** The part of `open` after the options are read: detector set-up, then the device. */
  function StartCapture(rec: Record, opts: Options, env: Env): Stage
  {
    match InitDetector(rec, env)
    case Abort(r, e) => Abort(r, e)
    case Proceed(r) => OpenDevice(r, opts, env)
  }

  /** The `open` export. A started session makes it return false and change nothing.
      Otherwise a fresh record replaces the current one before any argument is checked,
      so every thrown error leaves that record, unstarted, behind. Only when every check
      passes and the device is open does the session start; the async handle is armed
      then if a callback was given. */
  function Open(s: Addon, args: Args, env: Env): (t: OpenStep)
    requires !s.bag.Freed?
    // already started: false, and nothing changes at all
    ensures IsStarted(s) ==> t == OpenStep(Returned(false), s)
    ensures !IsStarted(s) ==> t.result != Returned(false) && t.state.bag.Live?
    // success exactly when every check passes and device 0 opens, whatever `input` says
    ensures t.result == Returned(true) <==>
              && !IsStarted(s)
              && args.ObjectArg?
              && args.opts.frameCallback != Some(NotCallable)
              && (WantsFaceDetect(args.opts) ==>
                    env.mainCascadeLoads && env.trackingCascadeLoads && env.trackerRuns)
              && env.deviceOpens(ByIndex(0))
    ensures t.result == Returned(true) ==>
              && IsStarted(t.state)
              && t.state.bag.rec.capture == Device(Some(ByIndex(0)), true)
              && (t.state.bag.rec.callback.Some? <==> args.opts.frameCallback.Some?)
              && (args.opts.frameCallback.Some? ==>
                    t.state.bag.rec.callback == Some(args.opts.frameCallback.value.handle))
              && (t.state.async == if args.opts.frameCallback.Some? then Armed else s.async)
              && (t.state.bag.rec.detector == if WantsFaceDetect(args.opts) then Tracker(true) else NoTracker)
    // every error leaves an unstarted record behind and the async handle alone
    ensures t.result.Threw? ==> t.state.bag.Live? && !t.state.bag.rec.started && t.state.async == s.async
  {
    if IsStarted(s) then OpenStep(Returned(false), s)
    else
      match Prepare(args, env)
      case Abort(rec, e) => OpenStep(Threw(e), s.(bag := Live(rec)))
      case Proceed(rec) =>
        var async := if rec.callback.Some? then Armed else s.async;
        OpenStep(Returned(true), Addon(Live(rec.(started := true)), async))
  }

  /** The `close` export. With no record it returns false. With a record that is not
      started it deletes the record and returns false, leaving `bag` dangling. With a
      started record it clears `started`, closes an armed async handle, stops a running
      face tracker, keeps the record and returns true. */
  function Close(s: Addon): (t: CloseStep)
    requires !s.bag.Freed?
    ensures t.result <==> IsStarted(s)
    ensures s.bag.NoBag? ==> t == CloseStep(false, s, None)
    ensures t.destroyed.Some? <==> s.bag.Live? && !s.bag.rec.started
    ensures t.destroyed.Some? ==>
              t.destroyed.value == s.bag.rec && t.state == s.(bag := Freed)
    ensures t.result ==>
              && t.state.bag.Live?
              && !t.state.bag.rec.started
              && t.state.bag.rec.(started := true, detector := s.bag.rec.detector) == s.bag.rec
              && (s.bag.rec.detector.Tracker? && s.bag.rec.faceDetect ==> t.state.bag.rec.detector == Tracker(false))
              && (s.bag.rec.detector.Tracker? && !s.bag.rec.faceDetect ==> t.state.bag.rec.detector == s.bag.rec.detector)
              && t.state.bag.rec.detector.Tracker? == s.bag.rec.detector.Tracker?
              && !t.state.async.Armed?
              && (t.state.async.Uninitialised? <==> s.async.Uninitialised?)
  {
    if s.bag.NoBag? then CloseStep(false, s, None)
    else
      var rec := s.bag.rec;
      if !rec.started then CloseStep(false, s.(bag := Freed), Some(rec))
      else
        var async := if s.async.Armed? then Closing else s.async;
        var detector := if rec.faceDetect && rec.detector.Tracker? then Tracker(false) else rec.detector;
        CloseStep(true, Addon(Live(rec.(started := false, detector := detector)), async), None)
  }

  /** The `isOpened` export. */
  function IsOpened(s: Addon): (open: bool)
    requires !s.bag.Freed?
    ensures open <==> s.bag.Live? && s.bag.rec.started
  {
    IsStarted(s)
  }

  /** The `getFrameSize` export: the record's dimensions while started, otherwise an empty
      object (`None`). */
  function GetFrameSize(s: Addon): (size: Option<(int32, int32)>)
    requires !s.bag.Freed?
    ensures size.Some? <==> IsOpened(s)
    ensures size.Some? ==> size.value == (s.bag.rec.width, s.bag.rec.height)
  {
    if s.bag.Live? && s.bag.rec.started then Some((s.bag.rec.width, s.bag.rec.height)) else None
  }

  /** The order in which `open` raises its errors: argument checks, then the callback,
      then the two cascades, then the tracker, then the device. Each error occurs exactly
      when every earlier check has passed and its own check fails. */
  lemma OpenErrorOrder(s: Addon, args: Args, env: Env)
    requires !s.bag.Freed?
    ensures var t := Open(s, args, env);
      && (t.result == Threw(MissingArgument) <==> !IsStarted(s) && args.NoArgs?)
      && (t.result == Threw(NotAnObject) <==> !IsStarted(s) && args.NonObject?)
      && (t.result == Threw(CallbackNotFunction) <==>
            !IsStarted(s) && args.ObjectArg? && args.opts.frameCallback == Some(NotCallable))
    ensures var t := Open(s, args, env);
      t.result == Threw(CascadeNotLoaded) <==>
        && !IsStarted(s) && args.ObjectArg? && args.opts.frameCallback != Some(NotCallable)
        && WantsFaceDetect(args.opts) && !(env.mainCascadeLoads && env.trackingCascadeLoads)
    ensures var t := Open(s, args, env);
      t.result == Threw(DetectorInitFailed) <==>
        && !IsStarted(s) && args.ObjectArg? && args.opts.frameCallback != Some(NotCallable)
        && WantsFaceDetect(args.opts) && env.mainCascadeLoads && env.trackingCascadeLoads
        && !env.trackerRuns
    ensures var t := Open(s, args, env);
      t.result == Threw(CaptureNotOpened) <==>
        && !IsStarted(s) && args.ObjectArg? && args.opts.frameCallback != Some(NotCallable)
        && (WantsFaceDetect(args.opts) ==>
              env.mainCascadeLoads && env.trackingCascadeLoads && env.trackerRuns)
        && !env.deviceOpens(ByIndex(0))
  {
  }

  /** What an early exit leaves behind, which is what a later `close` deletes: after a
      missing or non-object argument, exactly the freshly allocated record; after a bad
      callback or a cascade failure, a record with neither device nor tracker; after a
      tracker that will not run, that tracker, not running; after a device that will not
      open, that unopened device from index 0 and the tracker, running, if one was set up. */
  lemma OpenEarlyExitState(s: Addon, args: Args, env: Env)
    requires !s.bag.Freed?
    ensures var t := Open(s, args, env);
      t.result in {Threw(MissingArgument), Threw(NotAnObject)} ==> t.state.bag == Live(Fresh)
    ensures var t := Open(s, args, env);
      t.result == Threw(CallbackNotFunction) ==>
        t.state.bag.rec.capture == NoCapture && t.state.bag.rec.detector == NoTracker
    ensures var t := Open(s, args, env);
      t.result == Threw(CascadeNotLoaded) ==>
        t.state.bag.rec.capture == NoCapture && t.state.bag.rec.detector == NoTracker
    ensures var t := Open(s, args, env);
      t.result == Threw(DetectorInitFailed) ==>
        t.state.bag.rec.capture == NoCapture && t.state.bag.rec.detector == Tracker(false)
    ensures var t := Open(s, args, env);
      t.result == Threw(CaptureNotOpened) ==>
        && t.state.bag.rec.capture == Device(Some(ByIndex(0)), false)
        && t.state.bag.rec.detector == if WantsFaceDetect(args.opts) then Tracker(true) else NoTracker
  {
  }

  /** Once `open` has read the options object (whether it then succeeds or throws), the
      record holds the requested dimensions as a pair or none at all, the given codec or
      ".jpg", and face detection only if asked for. */
  lemma OpenAppliesOptions(s: Addon, opts: Options, env: Env)
    requires !IsStarted(s) && !s.bag.Freed?
    ensures ConfiguredFrom(Open(s, ObjectArg(opts), env).state.bag.rec, opts)
  {
  }

  /** A second `open` after a successful one returns false and changes nothing, whatever
      its arguments and whatever the foreign calls would do. */
  lemma SecondOpenRejected(s: Addon, args: Args, env: Env, args': Args, env': Env)
    requires !s.bag.Freed?
    requires Open(s, args, env).result == Returned(true)
    ensures Open(Open(s, args, env).state, args', env') == OpenStep(Returned(false), Open(s, args, env).state)
  {
  }

  /** Closing twice in a row: the second call returns false whenever the first returned
      true, and whenever there was no record to begin with. */
  lemma CloseTwiceReturnsFalse(s: Addon)
    requires !s.bag.Freed?
    requires Close(s).result || s.bag.NoBag?
    ensures !Close(s).state.bag.Freed?
    ensures !Close(Close(s).state).result
  {
  }

  /** The `input` option never affects `open`: two calls that differ only in it have the
      same outcome and leave the same state. */
  lemma OpenIgnoresInput(s: Addon, opts: Options, input: Option<Input>, env: Env)
    requires !s.bag.Freed?
    ensures Open(s, ObjectArg(opts), env) == Open(s, ObjectArg(opts.(input := input)), env)
  {
  }

  /** `isOpened` tracks the other exports: it holds after `open` exactly when the session
      was already started or this call succeeded, and it never holds after `close`. */
  lemma IsOpenedTracksOpenAndClose(s: Addon, args: Args, env: Env)
    requires !s.bag.Freed?
    ensures IsOpened(Open(s, args, env).state) <==> IsOpened(s) || Open(s, args, env).result == Returned(true)
    ensures !Close(s).state.bag.Freed? ==> !IsOpened(Close(s).state)
  {
  }

  /** Whatever `open` throws, the session is not opened afterwards and reports no frame
      size, and a following `close` deletes the record it left behind. */
  lemma FailedOpenLeavesClosed(s: Addon, args: Args, env: Env)
    requires !s.bag.Freed?
    requires Open(s, args, env).result.Threw?
    ensures !IsOpened(Open(s, args, env).state)
    ensures GetFrameSize(Open(s, args, env).state).None?
    ensures Close(Open(s, args, env).state) ==
              CloseStep(false, Open(s, args, env).state.(bag := Freed), Some(Open(s, args, env).state.bag.rec))
  {
  }

  /** After a `close` that returned true, `open` runs again instead of being rejected, and
      succeeds under the same conditions as from a state with no record. */
  lemma ReopenAfterClose(s: Addon, args: Args, env: Env)
    requires !s.bag.Freed?
    requires Close(s).result
    ensures Open(Close(s).state, args, env).result == Open(Initial, args, env).result
    ensures Open(Close(s).state, args, env).state.bag == Open(Initial, args, env).state.bag
  {
  }
}

=== FILE: worker.dfy ===
/** The capture worker (src/native/thread.cpp): the loop `cameraLoop` runs on a libuv
    worker thread, `updateAsync` hands one message to the JavaScript callback, and
    `cameraClose` releases the device after the loop ends.

    OpenCV is abstracted away. A captured frame is its size, the tracker's output is a
    list of (rectangle, status) pairs, and `imencode` is the parameter `encode`, about
    which nothing is assumed. */
module Worker {
  import opened Common
  import opened Session

  /** A `cv::Size`. */
  datatype Size = Size(width: int32, height: int32)

  /** `DetectionBasedTracker::ObjectStatus`. */
  datatype Status = DetectedNotShownYet | Detected | DetectedTemporaryLost | WrongObject

  /** A `cv::Rect`. */
  datatype Rect = Rect(x: int32, y: int32, width: int32, height: int32)

  /** One `DetectionBasedTracker::ExtObject`. */
  datatype TrackedObject = TrackedObject(location: Rect, status: Status)

  /** Which image the message carries: the frame as read, or the frame scaled to a size. */
  datatype FrameRef = RawFrame(size: Size) | ResizedFrame(size: Size)

  /** The image handed to the encoder: a frame and the rectangle drawn on it, if any. */
  datatype Picture = Picture(frame: FrameRef, mark: Option<Rect>)

  /** `CV_IMWRITE_JPEG_QUALITY`. */
  const JpegQualityFlag: int := 1

  const JpegQuality: int := 85

  /** The parameter vector passed to every `imencode` call. */
  const EncodeParams: seq<int> := [JpegQualityFlag, JpegQuality]

  /** `cv::imencode`: codec extension, image and parameters to encoded bytes. */
  type Encoder = (string, Picture, seq<int>) -> seq<byte>

  /** An `AsyncMessage`. */
  datatype Message = Message(image: seq<byte>, picture: Picture, faceDetected: bool)

  /** The fate of a message at the end of its iteration. */
  datatype Delivery = Sent | Deleted

  datatype Output = Output(message: Message, delivery: Delivery)

  /** The result of one loop body: the record after it, and what became of its message. */
  datatype Iteration = Iteration(record: Record, output: Output)

  /** The loop condition. `bag` is the global session pointer (which `close` and `open`
      change from the main thread), `message` the record the worker was started with, and
      `deviceIsOpen` the answer of `VideoCapture::isOpened`. */
  function LoopContinues(bag: Bag, message: Record, deviceIsOpen: bool): (continues: bool)
    requires !bag.Freed?
    // the session `isOpened` would report opened, whatever the async handle's state
    ensures forall async: Async :: continues <==>
              IsOpened(Addon(bag, async)) && (message.capture.Device? || message.capture.Dangling?) && deviceIsOpen
  {
    bag.Live? && bag.rec.started && !message.capture.NoCapture? && deviceIsOpen
  }

  /** The index of the first object the tracker reports as DETECTED, if there is one. */
  function FirstDetected(faces: seq<TrackedObject>): (r: Option<nat>)
    ensures r.Some? ==>
              && r.value < |faces|
              && faces[r.value].status == Detected
              && forall j :: 0 <= j < r.value ==> faces[j].status != Detected
    ensures r.None? ==> forall j :: 0 <= j < |faces| ==> faces[j].status != Detected
  {
    if |faces| == 0 then None
    else if faces[0].status == Detected then Some(0)
    else
      match FirstDetected(faces[1..])
      case None => None
      case Some(i) => Some(i + 1)
  }

  /** Whether the tracker reports some object as DETECTED. */
  predicate AnyDetected(faces: seq<TrackedObject>)
  {
    exists i :: 0 <= i < |faces| && faces[i].status == Detected
  }

  /** The annotation loop: the rectangle of the first DETECTED object, after which the scan
      stops. */
  function Mark(faces: seq<TrackedObject>): Option<Rect>
  {
    match FirstDetected(faces)
    case None => None
    case Some(i) => Some(faces[i].location)
  }

  /** The locations of all DETECTED objects, in list order. */
  function DetectedLocations(faces: seq<TrackedObject>): seq<Rect>
  {
    if |faces| == 0 then []
    else if faces[0].status == Detected then [faces[0].location] + DetectedLocations(faces[1..])
    else DetectedLocations(faces[1..])
  }

  /** The annotation loop marks the first of the detected locations and no other: one
      rectangle however many objects are detected, none when none is. */
  lemma {:induction false} MarkIsFirstDetection(faces: seq<TrackedObject>)
    ensures Mark(faces) == if |DetectedLocations(faces)| == 0 then None else Some(DetectedLocations(faces)[0])
    decreases |faces|
  {
    if |faces| > 0 && faces[0].status != Detected {
      MarkIsFirstDetection(faces[1..]);
    }
  }

  /** One iteration of `cameraLoop`'s body on the worker's record, given the size of the
      frame just read, the tracker's objects for it (read only when face detection is on)
      and whether the async handle has been initialised. */
  function Iterate(rec: Record, frame: Size, faces: seq<TrackedObject>, asyncInitialised: bool, encode: Encoder)
    : (it: Iteration)
    // with resize the frame is scaled to the record's size, which stays as it is
    ensures rec.resize ==>
              it.output.message.picture.frame == ResizedFrame(Size(rec.width, rec.height)) && it.record == rec
    // without resize the raw frame is used and its size becomes the record's
    ensures !rec.resize ==>
              && it.output.message.picture.frame == RawFrame(frame)
              && it.record.width == frame.width && it.record.height == frame.height
              && it.record.(width := rec.width, height := rec.height) == rec
    ensures !rec.faceDetect ==> !it.output.message.faceDetected
    ensures rec.faceDetect ==> (it.output.message.faceDetected <==> AnyDetected(faces))
    // one rectangle at most, on the first DETECTED object in list order
    ensures it.output.message.picture.mark.Some? <==> it.output.message.faceDetected
    ensures it.output.message.faceDetected ==>
              && FirstDetected(faces).Some?
              && it.output.message.picture.mark == Some(faces[FirstDetected(faces).value].location)
    // the encoder sees the annotated frame, the record's codec and quality 85
    ensures it.output.message.image == encode(rec.codec, it.output.message.picture, EncodeParams)
    ensures it.output.delivery == Sent <==> asyncInitialised
  {
    var frameRef := if rec.resize then ResizedFrame(Size(rec.width, rec.height)) else RawFrame(frame);
    var record := if rec.resize then rec else rec.(width := frame.width, height := frame.height);
    var mark := if rec.faceDetect then Mark(faces) else None;
    var picture := Picture(frameRef, mark);
    var message := Message(encode(rec.codec, picture, EncodeParams), picture, mark.Some?);
    Iteration(record, Output(message, if asyncInitialised then Sent else Deleted))
  }

  /** The rectangle an iteration draws is that of a DETECTED object with no DETECTED
      object before it in the tracker's list. */
  lemma IterateMarksFirstDetected(rec: Record, frame: Size, faces: seq<TrackedObject>, asyncInitialised: bool, encode: Encoder)
    ensures var m := Iterate(rec, frame, faces, asyncInitialised, encode).output.message;
      m.faceDetected ==>
        exists i :: && 0 <= i < |faces|
                    && faces[i].status == Detected
                    && m.picture.mark == Some(faces[i].location)
                    && forall j :: 0 <= j < i ==> faces[j].status != Detected
  {
    var m := Iterate(rec, frame, faces, asyncInitialised, encode).output.message;
    if m.faceDetected {
      var i := FirstDetected(faces).value;
      assert m.picture.mark == Some(faces[i].location);
    }
  }

  /** What the environment presents at one iteration boundary and during the iteration
      that follows: the global session pointer, the device's open state, the frame read,
      the tracker's objects and the async handle's state. */
  datatype Tick = Tick(bag: Bag, deviceIsOpen: bool, frame: Size, faces: seq<TrackedObject>, asyncInitialised: bool)

  /** A run of the loop: the worker's record when it ends and the iterations' outputs. */
  datatype LoopRun = LoopRun(record: Record, outputs: seq<Output>)

  /** Two records that differ at most in their dimensions. */
  predicate SameSettings(a: Record, b: Record)
  {
    a.(width := b.width, height := b.height) == b
  }

  /** What one iteration makes of a tick on a record with `rec`'s settings: the frame
      (scaled to `rec`'s size or as read), the face flag and the first-DETECTED mark when
      face detection is on, the encoding with `rec`'s codec, and the delivery. */
  predicate ProducedFrom(rec: Record, t: Tick, out: Output, encode: Encoder)
  {
    && out.message.picture.frame == (if rec.resize then ResizedFrame(Size(rec.width, rec.height)) else RawFrame(t.frame))
    && (out.message.faceDetected <==> rec.faceDetect && AnyDetected(t.faces))
    && out.message.picture.mark == (if rec.faceDetect then Mark(t.faces) else None)
    && out.message.image == encode(rec.codec, out.message.picture, EncodeParams)
    && (out.delivery == Sent <==> t.asyncInitialised)
  }

  /** `cameraLoop` over a schedule of ticks: the condition is checked before each
      iteration, and the run stops at the first tick where it fails (or when the
      schedule is exhausted). */
  function CameraLoop(rec: Record, ticks: seq<Tick>, encode: Encoder): (run: LoopRun)
    requires forall k :: 0 <= k < |ticks| ==> !ticks[k].bag.Freed?
    ensures |run.outputs| <= |ticks|
    ensures forall k :: 0 <= k < |run.outputs| ==> LoopContinues(ticks[k].bag, rec, ticks[k].deviceIsOpen)
    ensures |run.outputs| < |ticks| ==>
              !LoopContinues(ticks[|run.outputs|].bag, rec, ticks[|run.outputs|].deviceIsOpen)
    ensures SameSettings(run.record, rec)
    ensures rec.resize ==> run.record == rec
    ensures !rec.resize && |run.outputs| > 0 ==>
              run.record.width == ticks[|run.outputs| - 1].frame.width
              && run.record.height == ticks[|run.outputs| - 1].frame.height
    ensures forall k :: 0 <= k < |run.outputs| ==> ProducedFrom(rec, ticks[k], run.outputs[k], encode)
    decreases |ticks|
  {
    if |ticks| == 0 || !LoopContinues(ticks[0].bag, rec, ticks[0].deviceIsOpen) then LoopRun(rec, [])
    else
      var t := ticks[0];
      var it := Iterate(rec, t.frame, t.faces, t.asyncInitialised, encode);
      var rest := CameraLoop(it.record, ticks[1..], encode);
      ProducedByLoopStep(it.record, rec, ticks, it.output, rest.outputs, encode);
      LoopRun(rest.record, [it.output] + rest.outputs)
  }

  /** One iteration's output followed by the outputs the rest of the loop produces on a
      record with the same settings (the same size too, when it resizes) are what the
      whole loop produces. */
  lemma ProducedByLoopStep(a: Record, b: Record, ticks: seq<Tick>, first: Output, outputs: seq<Output>, encode: Encoder)
    requires SameSettings(a, b) && (a.resize ==> a == b) && 0 < |ticks| && |outputs| < |ticks|
    requires ProducedFrom(b, ticks[0], first, encode)
    requires forall k :: 0 <= k < |outputs| ==> ProducedFrom(a, ticks[1..][k], outputs[k], encode)
    ensures forall k :: 0 <= k < |outputs| + 1 ==> ProducedFrom(b, ticks[k], ([first] + outputs)[k], encode)
  {
  }

  /** The copy in `updateAsync`: a JavaScript array with one integer per encoded byte. */
  method ToCallbackArray(image: seq<byte>) returns (arr: seq<int>)
    ensures |arr| == |image|
    ensures forall i :: 0 <= i < |image| ==> arr[i] == image[i] as int
  {
    arr := seq(|image|, _ => 0);
    var pos := 0;
    while pos < |image|
      invariant 0 <= pos <= |image|
      invariant |arr| == |image|
      invariant forall i :: 0 <= i < pos ==> arr[i] == image[i] as int
    {
      arr := arr[pos := image[pos] as int];
      pos := pos + 1;
    }
  }

  /** A call of the JavaScript callback: which function, and its two arguments. */
  datatype Invocation = Invocation(callback: nat, elements: seq<int>, faceDetected: bool)

  /** `updateAsync`: the callback of the record `bag` currently points at (not necessarily
      the record of the worker that produced the message) receives the bytes as an array
      and the face flag. The native code dereferences both, so both must be present. */
  method UpdateAsync(bag: Bag, msg: Message) returns (call: Invocation)
    requires bag.Live? && bag.rec.callback.Some?
    ensures call.callback == bag.rec.callback.value
    ensures |call.elements| == |msg.image|
    ensures forall i :: 0 <= i < |msg.image| ==> call.elements[i] == msg.image[i] as int
    ensures forall i :: 0 <= i < |call.elements| ==> 0 <= call.elements[i] < 0x100
    ensures call.faceDetected == msg.faceDetected
  {
    var arr := ToCallbackArray(msg.image);
    call := Invocation(bag.rec.callback.value, arr, msg.faceDetected);
  }

  /** `cameraClose` as written: the device is released and deleted, and the record keeps
      the now dangling pointer. */
  function CameraCloseAsWritten(rec: Record): (r: Record)
    requires rec.capture.Device?
    ensures r.capture.Dangling?
    ensures r.(capture := rec.capture) == rec
  {
    rec.(capture := Dangling)
  }

  /** `cameraClose` with the pointer reset after the delete: the device is released and
      deleted, and the record no longer refers to it. */
  function CameraClose(rec: Record): (r: Record)
    requires rec.capture.Device?
    ensures r.capture.NoCapture?
    ensures r.(capture := rec.capture) == rec
  {
    rec.(capture := NoCapture)
  }
}
